=== FILE: README.md ===
# pyclmc in Dafny

pyclmc is a curses client for the LISTEN.moe radio stream. It starts mplayer
and reads keys; each recognised key writes a one-byte control token to the
player's standard input. A small asyncio websocket client listens to the
LISTEN.moe gateway for "now playing" updates. This project models the
decision logic inside that plumbing and proves properties of it.

The model has six modules:

- `Basics` (basics.dfy): the `Option` type that the other modules share.
- `Keys` (keys.dfy): the key lists (`QUIT`, `VOLUME_UP`, `VOLUME_DOWN`,
  `MUTE`, `PLAYPAUSE`) and the start-up constants. It also holds the
  `if`/`elif` chain that picks a command for a key, and two functions over a
  key sequence: the keys read before the first quit key, and the commands
  those keys select.
- `Actuator` (actuator.dfy): the write helpers `mplayer_incvol`,
  `mplayer_decvol`, `mplayer_playpause` and `mplayer_mutetoggle`, which
  differ only in their token. Also `_quit_mplayer`. The pipe is an answer
  (`Ok` or `Err(errno)`) per operation.
- `Session` (session.dfy): the `main` key loop, both as a recursive
  definition and as the `while` loop it is written as. Also the whole run of
  `main`: start-up, loop, "Quitting..." header, player shutdown and terminal
  restoration. The n-th write, flush or close of a run is answered by
  `replies(n)`.
- `Header` (header.dfy): the padding arithmetic of `set_header_text`.
- `Gateway` (gateway.dfy): the receive loop of `mainloop` and its
  per-`op` dispatch. Also the heartbeat task `_send_pings` with its
  `{"op": 9}` message and interval.

The code does the following, and the model follows it:

- A second welcome frame starts a second heartbeat task. The code has no
  guard against duplicates (`Gateway.DispatchAllActions`).
- There is no cancellation and no exit from the receive loop or the
  heartbeat task. The model makes no termination claim.
- Nothing tracks or clamps the volume. The code only sends step tokens.
- A flush error propagates out of a write helper even when it reports a
  closed pipe. Only the write sits inside the `try`.
- `main` has no `try`/`finally`. An error raised by a helper or by
  `_quit_mplayer` skips terminal restoration (`Session.MainRestores`).
- The flush in `_quit_mplayer` is outside its `try`. In an environment that
  answers every pipe operation with EPIPE or EINVAL, quitting does not go
  through: the write fails, the player is killed, and then the flush raises
  (`Session.MainOnClosedPipe`). Whether a real write fails at all depends on
  the pipe's buffering, which the model does not fix (see "Left out").

## Model

| member | source | states |
|---|---|---|
| Keys.Classify | pyclmc/pyclmc.py:33-42 | a key selects command c exactly when it is in c's key list; quit keys and the initial -1 select nothing |
| Keys.KeyListsDisjoint | pyclmc/pyclmc.py:16-20 | the five key lists are pairwise disjoint, so a key selects at most one action |
| Keys.BeforeQuitIsQuitFreePrefix | pyclmc/pyclmc.py:32-34 | the keys read are a prefix of the input that holds no quit key and is followed by a quit key unless the input runs out |
| Keys.BeforeQuitIgnoresRest | pyclmc/pyclmc.py:33-34 | keys after the first quit key do not change what is read |
| Keys.BoundAppend | pyclmc/pyclmc.py:35-42 | the commands selected by consecutive stretches of keys are the concatenation of each stretch's commands |
| Keys.BoundSingle | pyclmc/pyclmc.py:35-42 | one key contributes its list's command, or nothing when it is in no list |
| Actuator.Token | pyclmc/pyclmc.py:73-116 | no command writes the quit token 'q' |
| Actuator.TokensAreBoundKeys | pyclmc/pyclmc.py:16-20 | each command's token ('0', '9', ' ', 'm') is a key bound to that command; 'q' is a quit key; distinct commands write distinct tokens |
| Actuator.Send | pyclmc/pyclmc.py:82-124 | a successful write is followed by exactly one flush; EPIPE or EINVAL on the write returns without flushing; any other write errno is re-raised; a flush error always propagates |
| Actuator.QuitPlayer | pyclmc/pyclmc.py:72-80 | writes 'q'; kills the player exactly when that write fails; then flush, close, wait in that order; a flush or close error propagates, and that failing operation is the last one performed |
| Session.LoopIsDrive | pyclmc/pyclmc.py:32-42 | the key loop runs one helper per command selected by a key read before the first quit key, in input order, and stops at the first helper that raises |
| Session.Drive | pyclmc/pyclmc.py:35-42 | running the selected helpers one after another uses exactly one pipe answer per pipe operation performed |
| Session.Loop | pyclmc/pyclmc.py:32-42 | the key loop performs at most two pipe operations (a write and a flush) per key read |
| Session.LoopExitKeys | pyclmc/pyclmc.py:33-34 | the loop runs out of keys only when no key is a quit key; it stops at a quit key only when there is one, right after the keys it read; when no helper raises, it runs out of keys exactly when there is no quit key |
| Session.LoopStopsAtQuit | pyclmc/pyclmc.py:33-34 | no key after the first quit key is read, and the loop then does not wait for more keys |
| Session.KeyLoop | pyclmc/pyclmc.py:32-42 | the `while` loop as written, starting from -1, computes the same result as the recursive definition of the loop |
| Session.WritesAppend | pyclmc/pyclmc.py:82-124 | the tokens written by consecutive operation lists are concatenated in order |
| Session.SendWrites | pyclmc/pyclmc.py:82-124 | a helper writes its own token once and nothing else, whatever the pipe answers |
| Session.DriveWrites | pyclmc/pyclmc.py:35-42 | the helpers write their commands' tokens in order; one that raises cuts the list short right after its own write |
| Session.DriveStopsAtRaise | pyclmc/pyclmc.py:35-42 | when a helper raises, there is a first command whose helper raised: every helper before it returned, and no helper after it runs, so the run is the run of the commands up to and including it; its writes are exactly the tokens of those commands, so the list stops right after the raising helper's own write |
| Session.LoopWrites | pyclmc/pyclmc.py:32-42 | the loop writes the token of each command selected before the first quit key, in order, and nothing else, unless a helper raises, which cuts the list short |
| Session.DriveOnOpenPipe | pyclmc/pyclmc.py:82-124 | against a pipe that accepts everything, each helper writes and flushes once and none raises |
| Session.DriveOnClosedPipe | pyclmc/pyclmc.py:82-124 | when every pipe operation is answered with EPIPE or EINVAL, each helper writes once, swallows the error and does not flush |
| Session.Main | pyclmc/pyclmc.py:24-46 | a run that finishes ends with terminal restoration, after its start-up events |
| Session.MainRestores | pyclmc/pyclmc.py:24-46 | every run starts with curses set-up, the "Initializing..." header, the player at volume 100 and step 5, then the "Playing" header; the terminal is restored exactly when the run finishes |
| Session.ShutdownRestores | pyclmc/pyclmc.py:44-46 | after the loop, the start-up prefix is kept and the terminal is restored exactly when the quit went through |
| Session.QuitEvents | pyclmc/pyclmc.py:44-46 | a quit that went through ends with header "Quitting...", then the player's shutdown, then terminal restoration |
| Session.MainExitKeys | pyclmc/pyclmc.py:32-46 | a run finishes only after a quit key was read, and a run still waiting for a key has read every key without meeting a quit key |
| Session.MainTeardown | pyclmc/pyclmc.py:44-46 | a finished run ends with the teardown in the order header, player (with or without a kill), terminal |
| Session.ShutdownTeardown | pyclmc/pyclmc.py:44-80 | for any state the key loop stops in, a finished run ends with that teardown, and the player is killed exactly when the quit write failed |
| Session.MainOnOpenPipe | pyclmc/pyclmc.py:24-46 | against a pipe that accepts everything, a run plays each selected command in order and, if there is a quit key, finishes with the full teardown and no kill |
| Session.QuitOnOpenPipe | pyclmc/pyclmc.py:72-80 | quitting against a pipe that accepts everything writes 'q', flushes, closes, waits, and then the terminal is restored |
| Session.MainOnClosedPipe | pyclmc/pyclmc.py:72-80 | when every pipe operation is answered with EPIPE or EINVAL, every command is swallowed, but quitting kills the player and then raises at the flush; the terminal is not restored |
| Session.QuitOnClosedPipe | pyclmc/pyclmc.py:72-80 | when every pipe operation is answered with EPIPE or EINVAL, quitting writes 'q', kills, flushes and raises the flush's error |
| Header.Title | pyclmc/pyclmc.py:63 | the header is the text followed by " - pyclmc" |
| Header.Trunc | pyclmc/pyclmc.py:64 | `int()` of a float truncates toward zero |
| Header.Spaces | pyclmc/pyclmc.py:64 | repeating a space n times gives n spaces, and none when n is not positive |
| Header.PadIsMargin | pyclmc/pyclmc.py:64 | the computed pad, with a negative count read as empty, is max(0, (cols - len) div 2) |
| Header.Line | pyclmc/pyclmc.py:62-66 | the drawn line is the title with max(0, (cols - len) div 2) spaces on each side, whatever the sign of the computed pad |
| Session.Drawn | pyclmc/pyclmc.py:62-66 | a header event draws its banner text followed by " - pyclmc", with the same number of spaces before and after it |
| Header.Centred | pyclmc/pyclmc.py:63-64 | the line is the title with that many spaces on each side |
| Header.LineWidth | pyclmc/pyclmc.py:63-64 | a title that fits gives a line of cols or cols - 1 characters (cols when the free columns are even); a wider title is drawn unpadded at its own length |
| Gateway.HeartbeatMillis | pyclmc/listenmoe_websocket.py:42 | an interval exists exactly when the payload is an object whose `heartbeat` is a number (or a boolean); a missing key or any other value is the KeyError or TypeError case; a number is taken as it is |
| Gateway.Dispatch | pyclmc/listenmoe_websocket.py:41-45 | op 0 starts one heartbeat task whose interval times 1000 is the frame's milliseconds, and raises when the frame has none; op 1 calls back once with the whole frame and the caller's context; any other op does nothing |
| Gateway.DispatchAll | pyclmc/listenmoe_websocket.py:39-45 | dispatching frames in order yields at most one action per frame, and strictly fewer when a dispatch raises |
| Gateway.Listen | pyclmc/listenmoe_websocket.py:31-45 | the receive loop yields at most one action per receive result, and strictly fewer when it raises |
| Gateway.FramesAppend | pyclmc/listenmoe_websocket.py:31-39 | the frames of consecutive stretches of receive results are concatenated in arrival order |
| Gateway.ListenIsDispatchAll | pyclmc/listenmoe_websocket.py:31-45 | the receive loop does exactly what dispatching its frames in arrival order does; timeouts contribute nothing |
| Gateway.TimeoutIsRetried | pyclmc/listenmoe_websocket.py:32-37 | removing a timed-out receive anywhere changes nothing |
| Gateway.OtherOpsIgnored | pyclmc/listenmoe_websocket.py:41-45 | a frame whose op is neither 0 nor 1 can be removed without changing anything |
| Gateway.DispatchCounts | pyclmc/listenmoe_websocket.py:41-45 | one dispatch calls back with its frame exactly when it is an update, and starts one task exactly when it is a welcome |
| Gateway.CountsAppend | pyclmc/listenmoe_websocket.py:39-45 | callbacks and started tasks of consecutive action lists add up |
| Gateway.DispatchAllActions | pyclmc/listenmoe_websocket.py:39-45 | callbacks are the update frames in arrival order, and a dispatch that raises cuts them short; every welcome frame starts its own heartbeat task (no duplicate guard); when the loop raised, it raised at a welcome whose task never started |
| Gateway.DispatchAllStops | pyclmc/listenmoe_websocket.py:39-45 | when dispatching raises, it raised at some frame: every frame before it was dispatched normally, that frame's dispatch raised, and no frame after it contributes an action |
| Gateway.CallbacksGetContext | pyclmc/listenmoe_websocket.py:44-45 | every callback receives the caller's context |
| Gateway.ListenActions | pyclmc/listenmoe_websocket.py:31-45 | the same callbacks and task counts hold for the receive loop, whatever timeouts come between the frames |
| Gateway.Mainloop | pyclmc/listenmoe_websocket.py:31-45 | the nested `while` loops as written compute the same result as the recursive receive loop |
| Gateway.Receive | pyclmc/listenmoe_websocket.py:32-37 | the inner loop retries every timeout and returns the first frame; every result it skipped, or every result when none is a frame, is a timeout. The frame it returns is one the receive loop then handles as it would without the timeouts; when the results run out first, nothing remains to be done |
| Gateway.Pings | pyclmc/listenmoe_websocket.py:21-25 | each round of the heartbeat task is one sleep and one send |
| Gateway.PingSchedule | pyclmc/listenmoe_websocket.py:21-25 | the task's k-th heartbeat (from 0) is sent k + 1 intervals after it starts; a non-positive interval does not wait |
| Gateway.PingsSendOnlyPing | pyclmc/listenmoe_websocket.py:17-25 | the heartbeat task sends `{"op": 9}` and nothing else |
| Gateway.WelcomeCadence | pyclmc/listenmoe_websocket.py:41-43 | a welcome frame with a positive interval of ms milliseconds gives a task whose k-th heartbeat is sent (k + 1) * ms / 1000 seconds after it starts |
| Gateway.DefaultCadence | pyclmc/listenmoe_websocket.py:21-23 | with its default interval the task sends its heartbeats 45, 90, 135, ... seconds after it starts |

## Left out

- Terminal I/O: `initscr`, `noecho`, `cbreak`, `keypad`, `clear`, `addstr`,
  `refresh`, `nocbreak`, `echo` and `endwin`. `_init_curses`,
  `set_header_text` and `_quit_curses` each become one event; the header's
  drawn text is computed by `Header.Line`. The reverse-video attribute is
  not modelled.
- `getch` as a device: keys are a finite sequence. When the keys run out
  without a quit key, the run is reported as waiting for a key, because the
  real program would block there.
- `Popen` and the mplayer process: the command line and stream URL are
  reduced to the start-up volume and step. Each write, flush or close is
  answered by an environment function. `kill()` and `wait()` are taken to
  succeed.
- Actuator.Send: the buffering of the player's standard input is not
  modelled. `Popen` opens it buffered by default, so a one-byte write
  normally only fills the buffer and succeeds, and a broken pipe is reported
  by the flush, outside the `try`. The model lets every write and flush
  answer independently. The realistic case (write succeeds, flush raises
  EPIPE) is one of the answers covered. The EPIPE/EINVAL branch of the
  helpers is modelled as written, even though with buffering it is rarely
  taken.
- Session.MainRestores: errors from curses calls and from `Popen` are not modelled.
  Only `IOError`s from the pipe end a run early.
- Header.Line: Python's floating-point division is modelled as exact real
  division. The two agree for any width and length below 2^53. The curses
  error raised when a line does not fit the window is not modelled.
- The unused global `HEADER_TEXT`: the assignment in `set_header_text` is to
  a local name and changes no state.
- `websockets.connect`, the gateway URL, `ws.recv` and `ws.send`: the
  socket is a finite sequence of receive results. Connection errors raised
  by `ws.recv` are not modelled.
- `json.loads`: frames arrive decoded as an `op` integer, a payload and an
  event type. Malformed text, and a frame without an integer `op`, are out.
  A missing or non-numeric `heartbeat` in a welcome frame is modelled and
  makes the loop raise.
- Gateway.DispatchAllActions: the callback `on_meta_update` is foreign code
  and is assumed to return normally. An exception from it would end
  `mainloop` at an update frame. So "the loop raised only at a welcome"
  holds for the model, not for every callback.
- `send_ws`: the `json.dumps` encoding is not modelled. A send carries the
  JSON value itself.
- `asyncio.wait_for` timing, `create_task`, and the interleaving of the
  heartbeat task with the receive loop: dispatch records that a task starts.
  Its schedule is modelled separately, in seconds of sleep, as a finite
  number of rounds. The loops themselves run forever.
- `run_mainloop` and the event loop: scheduling only.
- Volume tracking and clamping, duplicate-heartbeat suppression,
  cancellation and reconnect: the code does none of these, so the model
  claims none.

=== FILE: actuator.dfy ===
/**
 The playback actuator: the single-byte control tokens pyclmc writes to
 mplayer's standard input, and how each write helper reacts to the pipe
 (pyclmc/pyclmc.py, lines 72-124).

 The pipe itself is not modelled. Each fallible pipe operation (write, flush,
 close) is answered by an `IoResult` the caller supplies; `kill()` and
 `wait()` are taken to succeed.
 */
module Actuator {
  import opened Basics
  import opened Keys

  /** Linux errno values the write helpers test for. */
  const EINVAL: int := 22
  const EPIPE: int := 32

  /** The answer of one pipe operation: success, or an `IOError` carrying an errno. */
  datatype IoResult = Ok | Err(errno: int)

  /** An operation performed on the player process or its input pipe. */
  datatype PipeOp = Write(token: char) | Flush | Close | Kill | Wait

  /** How a helper leaves: it returns normally, or an `IOError` propagates out of it. */
  datatype Outcome = Returned | Raised(errno: int)

  /** The pipe operations a helper performs, in order, and how it leaves. */
  datatype Effect = Effect(ops: seq<PipeOp>, outcome: Outcome)

  /** The token that asks mplayer to quit. */
  const QUIT_TOKEN: char := 'q'

  /** The token each command writes; none is the quit token. */
  function Token(c: Command): (t: char)
    ensures t != QUIT_TOKEN
  {
    match c
    case VolumeUp => '0'
    case VolumeDown => '9'
    case PlayPause => ' '
    case MuteToggle => 'm'
  }

  /**
   Each token is itself one of the keys bound to its command (and the quit
   token is a quit key), so distinct commands write distinct tokens.
   */
  lemma TokensAreBoundKeys()
    ensures forall c :: Classify(Token(c) as int) == Some(c)
    ensures IsQuit(QUIT_TOKEN as int)
    ensures forall c, d :: Token(c) == Token(d) ==> c == d
  {
    forall c, d | Token(c) == Token(d)
      ensures c == d
    {
      assert Classify(Token(c) as int) == Some(c);
      assert Classify(Token(d) as int) == Some(d);
    }
  }

  /** The errors the write helpers treat as "the player has closed its input". */
  predicate IsClosedPipe(errno: int)
  {
    errno == EPIPE || errno == EINVAL
  }

  /**
   One of `mplayer_incvol`, `mplayer_decvol`, `mplayer_playpause` and
   `mplayer_mutetoggle`: write the command's token; if the pipe reports a
   closed pipe, return at once without flushing; if it reports any other
   error, let it propagate; after a write that went through, flush exactly
   once, outside the error handler, so every flush error propagates.
   */
  function Send(c: Command, write: IoResult, flush: IoResult): (e: Effect)
    ensures write.Ok? ==> e.ops == [Write(Token(c)), Flush]
    ensures write.Err? ==> e.ops == [Write(Token(c))]
    ensures write.Err? ==> (e.outcome.Returned? <==> IsClosedPipe(write.errno))
    ensures write.Ok? ==> (e.outcome.Returned? <==> flush.Ok?)
    ensures e.outcome.Raised? ==> e.outcome.errno == (if write.Err? then write.errno else flush.errno)
  {
    match write
    case Err(n) => Effect([Write(Token(c))], if IsClosedPipe(n) then Returned else Raised(n))
    case Ok => Effect([Write(Token(c)), Flush], if flush.Ok? then Returned else Raised(flush.errno))
  }

  /**
   `_quit_mplayer`: write the quit token; any error from that write kills the
   process (whatever its errno). Then flush, close and wait, in that order,
   whether or not the write failed; an error from the flush or the close
   propagates and skips what follows it.
   */
  function QuitPlayer(write: IoResult, flush: IoResult, close: IoResult): (e: Effect)
    ensures 2 <= |e.ops| <= 5 && e.ops[0] == Write(QUIT_TOKEN)
    ensures e.ops[1] == (if write.Err? then Kill else Flush)
    ensures Kill in e.ops <==> write.Err?
    ensures e.outcome.Returned? <==> flush.Ok? && close.Ok?
    ensures e.outcome.Returned? ==> |e.ops| >= 4 && e.ops[|e.ops| - 3..] == [Flush, Close, Wait]
    ensures e.outcome.Raised? ==> e.outcome.errno == (if flush.Err? then flush.errno else close.errno) && Wait !in e.ops
    ensures e.ops <= [Write(QUIT_TOKEN)] + (if write.Err? then [Kill] else []) + [Flush, Close, Wait]
    ensures flush.Err? ==> Close !in e.ops
    ensures e.outcome.Raised? ==> e.ops[|e.ops| - 1] == (if flush.Err? then Flush else Close)
  {
    var start := if write.Err? then [Write(QUIT_TOKEN), Kill] else [Write(QUIT_TOKEN)];
    if flush.Err? then Effect(start + [Flush], Raised(flush.errno))
    else if close.Err? then Effect(start + [Flush, Close], Raised(close.errno))
    else Effect(start + [Flush, Close, Wait], Returned)
  }
}

=== FILE: basics.dfy ===
/** Small shared vocabulary for the pyclmc model. */
module Basics {

  /** A value that may be absent. */
  datatype Option<+T> = None | Some(value: T)
}

=== FILE: gateway.dfy ===
/**
 The LISTEN.moe gateway client of pyclmc (pyclmc/listenmoe_websocket.py):
 the receive loop of `mainloop`, which retries timed-out receives and
 dispatches each decoded frame by its `op`, and the heartbeat task
 `_send_pings`, which sends `{"op": 9}` after every interval.

 Frames arrive already decoded; what the socket delivers is a finite
 sequence of receive results. When it runs out, the real loop would wait
 for more, so the model reports that the client is still listening. The
 loop has no exit of its own: it ends only by raising.
 */
module Gateway {
  import opened Basics

  /** A decoded JSON value. Numbers are exact reals. */
  datatype Json =
    | Null
    | Bool(b: bool)
    | Number(x: real)
    | Text(s: string)
    | Array(items: seq<Json>)
    | Object(fields: map<string, Json>)

  /** A gateway frame: its `op` code, its payload `d` and its event type `t`. */
  datatype Frame = Frame(op: int, d: Json, t: Option<string>)

  /** One `wait_for(ws.recv(), timeout=0.5)`: it timed out, or a frame arrived. */
  datatype Received = TimedOut | Message(frame: Frame)

  /** What dispatching a frame does: start a heartbeat task, or call the metadata callback. */
  datatype Action<C> = StartHeartbeat(seconds: real) | Callback(frame: Frame, context: C)

  const WELCOME := 0
  const UPDATE := 1
  const HEARTBEAT := 9

  /** The default interval of `_send_pings`, in seconds. */
  const DEFAULT_INTERVAL: real := 45.0

  /** The heartbeat message. */
  const PING: Json := Object(map["op" := Number(HEARTBEAT as real)])

  /**
   `d['heartbeat']`, the interval in milliseconds, when `d` is an object with
   a number under that key. Python's booleans are the numbers 1 and 0. Any
   other payload makes `mainloop` raise (KeyError or TypeError).
   */
  function HeartbeatMillis(d: Json): (r: Option<real>)
    ensures r.Some? <==>
      (d.Object? && "heartbeat" in d.fields && (d.fields["heartbeat"].Number? || d.fields["heartbeat"].Bool?))
    ensures d.Object? && "heartbeat" in d.fields && d.fields["heartbeat"].Number? ==>
      r == Some(d.fields["heartbeat"].x)
  {
    if d.Object? && "heartbeat" in d.fields then
      match d.fields["heartbeat"]
      case Number(x) => Some(x)
      case Bool(b) => Some(if b then 1.0 else 0.0)
      case _ => None
    else None
  }

  /**
   Dispatch one frame with the caller's context `ctx`: a welcome frame starts
   one heartbeat task whose interval in seconds is the frame's milliseconds
   over 1000, or raises when the frame carries no interval; an update frame
   calls the callback once with the whole frame and `ctx`; any other frame
   does nothing. `None` means the dispatch raised.
   */
  function Dispatch<C>(f: Frame, ctx: C): (r: Option<seq<Action<C>>>)
    ensures r.None? <==> f.op == WELCOME && HeartbeatMillis(f.d).None?
    ensures f.op == WELCOME && r.Some? ==>
      |r.value| == 1 && r.value[0].StartHeartbeat? && r.value[0].seconds * 1000.0 == HeartbeatMillis(f.d).value
    ensures f.op == UPDATE ==> r == Some([Callback(f, ctx)])
    ensures f.op != WELCOME && f.op != UPDATE ==> r == Some([])
  {
    if f.op == WELCOME then
      match HeartbeatMillis(f.d)
      case None => None
      case Some(ms) => Some([StartHeartbeat(ms / 1000.0)])
    else if f.op == UPDATE then Some([Callback(f, ctx)])
    else Some([])
  }

  /** What the receive loop has done: its actions in order, and whether it raised. */
  datatype Heard<C> = Heard(actions: seq<Action<C>>, raised: bool)

  /** Dispatch frames in arrival order, stopping at the first dispatch that raises. */
  function DispatchAll<C>(fs: seq<Frame>, ctx: C): (r: Heard<C>)
    ensures |r.actions| <= |fs|
    ensures r.raised ==> |r.actions| < |fs|
    decreases |fs|
  {
    if |fs| == 0 then Heard([], false)
    else
      match Dispatch(fs[0], ctx)
      case None => Heard([], true)
      case Some(acts) =>
        var rest := DispatchAll(fs[1..], ctx);
        Heard(acts + rest.actions, rest.raised)
  }

  /** The receive loop of `mainloop` over receive results: a timeout is retried, a frame is dispatched. */
  function Listen<C>(rs: seq<Received>, ctx: C): (r: Heard<C>)
    ensures |r.actions| <= |rs|
    ensures r.raised ==> |r.actions| < |rs|
    decreases |rs|
  {
    if |rs| == 0 then Heard([], false)
    else
      match rs[0]
      case TimedOut => Listen(rs[1..], ctx)
      case Message(f) =>
        match Dispatch(f, ctx)
        case None => Heard([], true)
        case Some(acts) =>
          var rest := Listen(rs[1..], ctx);
          Heard(acts + rest.actions, rest.raised)
  }

  /** The frames among the receive results, in arrival order. */
  function Frames(rs: seq<Received>): (r: seq<Frame>)
    ensures |r| <= |rs|
  {
    if |rs| == 0 then []
    else (if rs[0].Message? then [rs[0].frame] else []) + Frames(rs[1..])
  }

  lemma {:induction false} FramesAppend(a: seq<Received>, b: seq<Received>)
    ensures Frames(a + b) == Frames(a) + Frames(b)
    decreases |a|
  {
    if |a| == 0 {
      assert a + b == b;
    } else {
      var head := if a[0].Message? then [a[0].frame] else [];
      assert (a + b)[0] == a[0] && (a + b)[1..] == a[1..] + b;
      FramesAppend(a[1..], b);
      assert head + (Frames(a[1..]) + Frames(b)) == (head + Frames(a[1..])) + Frames(b);
    }
  }

  /** Timeouts dispatch nothing: the loop does exactly what dispatching the frames alone does. */
  lemma {:induction false} ListenIsDispatchAll<C>(rs: seq<Received>, ctx: C)
    ensures Listen(rs, ctx) == DispatchAll(Frames(rs), ctx)
    decreases |rs|
  {
    if |rs| > 0 {
      ListenIsDispatchAll(rs[1..], ctx);
      if rs[0].Message? {
        var fs := Frames(rs);
        assert fs == [rs[0].frame] + Frames(rs[1..]);
        assert fs[0] == rs[0].frame && fs[1..] == Frames(rs[1..]);
      } else {
        assert Frames(rs) == Frames(rs[1..]);
      }
    }
  }

  /** A timeout anywhere among the receive results changes nothing. */
  lemma TimeoutIsRetried<C>(a: seq<Received>, b: seq<Received>, ctx: C)
    ensures Listen(a + [TimedOut] + b, ctx) == Listen(a + b, ctx)
  {
    FramesAppend(a, [TimedOut]);
    FramesAppend(a + [TimedOut], b);
    FramesAppend(a, b);
    assert Frames([TimedOut]) == [];
    assert Frames(a) + [] == Frames(a);
    ListenIsDispatchAll(a + [TimedOut] + b, ctx);
    ListenIsDispatchAll(a + b, ctx);
  }

  /** Frames with an op other than welcome and update can be dropped from the input without any effect. */
  lemma {:induction false} OtherOpsIgnored<C>(a: seq<Frame>, f: Frame, b: seq<Frame>, ctx: C)
    requires f.op != WELCOME && f.op != UPDATE
    ensures DispatchAll(a + [f] + b, ctx) == DispatchAll(a + b, ctx)
    decreases |a|
  {
    if |a| == 0 {
      assert a + [f] + b == [f] + b && a + b == b;
      assert ([f] + b)[0] == f && ([f] + b)[1..] == b;
      assert [] + DispatchAll(b, ctx).actions == DispatchAll(b, ctx).actions;
    } else {
      OtherOpsIgnored(a[1..], f, b, ctx);
      assert (a + [f] + b)[0] == a[0] && (a + [f] + b)[1..] == a[1..] + [f] + b;
      assert (a + b)[0] == a[0] && (a + b)[1..] == a[1..] + b;
    }
  }

  /** The update frames among `fs`, in arrival order. */
  function Updates(fs: seq<Frame>): (r: seq<Frame>)
    ensures |r| <= |fs|
  {
    if |fs| == 0 then [] else (if fs[0].op == UPDATE then [fs[0]] else []) + Updates(fs[1..])
  }

  /** The frames the callback is called with, in order. */
  function Called<C>(acts: seq<Action<C>>): (r: seq<Frame>)
    ensures |r| <= |acts|
  {
    if |acts| == 0 then [] else (if acts[0].Callback? then [acts[0].frame] else []) + Called(acts[1..])
  }

  /** The number of heartbeat tasks started. */
  function Started<C>(acts: seq<Action<C>>): nat
  {
    if |acts| == 0 then 0 else (if acts[0].StartHeartbeat? then 1 else 0) + Started(acts[1..])
  }

  /** The number of welcome frames among `fs`. */
  function Welcomes(fs: seq<Frame>): nat
  {
    if |fs| == 0 then 0 else (if fs[0].op == WELCOME then 1 else 0) + Welcomes(fs[1..])
  }

  lemma {:induction false} CountsAppend<C>(a: seq<Action<C>>, b: seq<Action<C>>)
    ensures Called(a + b) == Called(a) + Called(b)
    ensures Started(a + b) == Started(a) + Started(b)
    decreases |a|
  {
    if |a| == 0 {
      assert a + b == b;
    } else {
      var head := if a[0].Callback? then [a[0].frame] else [];
      assert (a + b)[0] == a[0] && (a + b)[1..] == a[1..] + b;
      CountsAppend(a[1..], b);
      assert head + (Called(a[1..]) + Called(b)) == (head + Called(a[1..])) + Called(b);
    }
  }

  /**
   A dispatch loop that raised stopped at a frame whose dispatch raised:
   before it, the frames were dispatched without raising, and no frame after
   it was dispatched.
   */
  ghost predicate RaisedAt<C>(fs: seq<Frame>, ctx: C, k: int)
  {
    && 0 <= k < |fs|
    && Dispatch(fs[k], ctx).None?
    && DispatchAll(fs[..k], ctx) == Heard(DispatchAll(fs, ctx).actions, false)
  }

  /** A dispatch that raises ends `mainloop`: nothing after the raising frame is dispatched. */
  lemma {:induction false} DispatchAllStops<C>(fs: seq<Frame>, ctx: C)
    ensures DispatchAll(fs, ctx).raised ==> exists k :: RaisedAt(fs, ctx, k)
    decreases |fs|
  {
    if |fs| > 0 {
      match Dispatch(fs[0], ctx)
      case None =>
        assert fs[..0] == [];
        assert RaisedAt(fs, ctx, 0);
      case Some(acts) =>
        var rest := DispatchAll(fs[1..], ctx);
        DispatchAllStops(fs[1..], ctx);
        if rest.raised {
          var k :| RaisedAt(fs[1..], ctx, k);
          RaisedLater(fs, ctx, k);
        }
    }
  }

  /** A raise at the k-th frame after a first frame that dispatched is a raise at the (k + 1)-th. */
  lemma RaisedLater<C>(fs: seq<Frame>, ctx: C, k: nat)
    requires |fs| > 0 && Dispatch(fs[0], ctx).Some?
    requires RaisedAt(fs[1..], ctx, k)
    ensures RaisedAt(fs, ctx, k + 1)
  {
    var acts := Dispatch(fs[0], ctx).value;
    var head := fs[..k + 1];
    assert head[0] == fs[0] && head[1..] == fs[1..][..k];
    assert fs[k + 1] == fs[1..][k];
    assert DispatchAll(head, ctx) == Heard(acts + DispatchAll(fs[1..][..k], ctx).actions, false);
  }

  /** One dispatch calls back with its frame exactly when it is an update, and starts a task exactly when it is a welcome. */
  lemma DispatchCounts<C>(f: Frame, ctx: C)
    requires Dispatch(f, ctx).Some?
    ensures Called(Dispatch(f, ctx).value) == (if f.op == UPDATE then [f] else [])
    ensures Started(Dispatch(f, ctx).value) == (if f.op == WELCOME then 1 else 0)
  {
    var acts := Dispatch(f, ctx).value;
    if f.op == WELCOME || f.op == UPDATE {
      assert acts[1..] == [];
    }
  }

  /**
   The callback is called once per update frame, with that frame, in arrival
   order; a dispatch that raises cuts the list short. Every welcome frame
   starts a heartbeat task of its own, with no guard against a second one;
   when the loop raised, it raised at a welcome frame whose task never
   started.
   */
  lemma {:induction false} DispatchAllActions<C>(fs: seq<Frame>, ctx: C)
    ensures var h := DispatchAll(fs, ctx);
      && Called(h.actions) <= Updates(fs)
      && (!h.raised ==> Called(h.actions) == Updates(fs) && Started(h.actions) == Welcomes(fs))
      && (h.raised ==> Started(h.actions) < Welcomes(fs))
    decreases |fs|
  {
    if |fs| > 0 {
      var f := fs[0];
      assert Updates(fs) == (if f.op == UPDATE then [f] else []) + Updates(fs[1..]);
      if Dispatch(f, ctx).Some? {
        var acts := Dispatch(f, ctx).value;
        var rest := DispatchAll(fs[1..], ctx);
        DispatchAllActions(fs[1..], ctx);
        CountsAppend(acts, rest.actions);
        DispatchCounts(f, ctx);
      }
    }
  }

  /** Every callback among `acts` gets the context `ctx`. */
  ghost predicate CallsBackWith<C>(acts: seq<Action<C>>, ctx: C)
  {
    forall i :: 0 <= i < |acts| && acts[i].Callback? ==> acts[i].context == ctx
  }

  /** Every callback gets the caller's context. */
  lemma {:induction false} CallbacksGetContext<C>(fs: seq<Frame>, ctx: C)
    ensures CallsBackWith(DispatchAll(fs, ctx).actions, ctx)
    decreases |fs|
  {
    if |fs| > 0 && Dispatch(fs[0], ctx).Some? {
      var acts := Dispatch(fs[0], ctx).value;
      var rest := DispatchAll(fs[1..], ctx).actions;
      CallbacksGetContext(fs[1..], ctx);
      var all := DispatchAll(fs, ctx).actions;
      assert all == acts + rest;
      forall i | 0 <= i < |all| && all[i].Callback?
        ensures all[i].context == ctx
      {
        if i >= |acts| {
          assert all[i] == rest[i - |acts|];
        } else if fs[0].op == UPDATE {
          assert acts == [Callback(fs[0], ctx)];
        }
      }
    }
  }

  /** The receive loop's callbacks and heartbeat tasks are those of its frames, whatever timeouts come between them. */
  lemma ListenActions<C>(rs: seq<Received>, ctx: C)
    ensures var h := Listen(rs, ctx);
      && Called(h.actions) <= Updates(Frames(rs))
      && (!h.raised ==> Called(h.actions) == Updates(Frames(rs)) && Started(h.actions) == Welcomes(Frames(rs)))
      && (h.raised ==> Started(h.actions) < Welcomes(Frames(rs)))
  {
    ListenIsDispatchAll(rs, ctx);
    DispatchAllActions(Frames(rs), ctx);
  }

  /**
   `mainloop` as written: an outer loop that never exits by itself, and an
   inner loop (`Receive`) that keeps receiving until a receive does not time
   out.
   */
  method Mainloop<C>(rs: seq<Received>, ctx: C) returns (h: Heard<C>)
    ensures h == Listen(rs, ctx)
  {
    var i := 0;
    var acts: seq<Action<C>> := [];
    while i < |rs|
      invariant 0 <= i <= |rs|
      invariant var rest := Listen(rs[i..], ctx); Listen(rs, ctx) == Heard(acts + rest.actions, rest.raised)
      decreases |rs| - i
    {
      var recv;
      recv, i := Receive(rs, i, ctx);
      if recv.None? {
        assert acts + [] == acts;
        return Heard(acts, false);
      }
      var f := recv.value;
      ghost var here := [Message(f)] + rs[i..];
      assert here[0] == Message(f) && here[1..] == rs[i..];
      match Dispatch(f, ctx)
      case None =>
        assert acts + [] == acts;
        return Heard(acts, true);
      case Some(a) =>
        ghost var rest := Listen(rs[i..], ctx);
        assert acts + a + rest.actions == acts + (a + rest.actions);
        acts := acts + a;
    }
    assert acts + [] == acts;
    h := Heard(acts, false);
  }

  /**
   The inner loop of `mainloop` from the `start`-th receive result on: it
   retries every timeout and returns the first frame that arrives, which the
   receive loop then handles exactly as it would have without the timeouts.
   When the results run out first, nothing remains to be done.
   */
  method Receive<C>(rs: seq<Received>, start: nat, ctx: C) returns (recv: Option<Frame>, i: nat)
    requires start <= |rs|
    ensures start <= i <= |rs|
    ensures recv.None? ==> i == |rs| && Listen(rs[start..], ctx) == Heard([], false)
    ensures recv.Some? ==> start < i && rs[i - 1] == Message(recv.value)
    ensures recv.Some? ==> Listen(rs[start..], ctx) == Listen([Message(recv.value)] + rs[i..], ctx)
    ensures recv.Some? ==> forall j :: start <= j < i - 1 ==> rs[j] == TimedOut
    ensures recv.None? ==> forall j :: start <= j < |rs| ==> rs[j] == TimedOut
  {
    recv := None;
    i := start;
    while recv.None? && i < |rs|
      invariant start <= i <= |rs|
      invariant recv.Some? ==> start < i && rs[i - 1] == Message(recv.value)
      invariant recv.None? ==> Listen(rs[start..], ctx) == Listen(rs[i..], ctx)
      invariant recv.Some? ==> Listen(rs[start..], ctx) == Listen([Message(recv.value)] + rs[i..], ctx)
      invariant recv.Some? ==> forall j :: start <= j < i - 1 ==> rs[j] == TimedOut
      invariant recv.None? ==> forall j :: start <= j < i ==> rs[j] == TimedOut
      decreases |rs| - i
    {
      ghost var here := rs[i..];
      assert here[0] == rs[i] && here[1..] == rs[i + 1..];
      var got := rs[i];
      i := i + 1;
      match got
      case TimedOut =>
        recv := None;
      case Message(f) =>
        recv := Some(f);
        assert [Message(f)] + rs[i..] == here;
    }
  }

  /** One step of the heartbeat task: sleep for some seconds, or send a message with `send_ws`. */
  datatype Step = Sleep(seconds: real) | Transmit(data: Json)

  /** The first `rounds` rounds of `_send_pings(ws, interval)`: sleep for the interval, then send the heartbeat. */
  function Pings(interval: real, rounds: nat): (r: seq<Step>)
    ensures |r| == 2 * rounds
  {
    if rounds == 0 then [] else [Sleep(interval), Transmit(PING)] + Pings(interval, rounds - 1)
  }

  /** How long `asyncio.sleep(s)` waits: `s` seconds, and not at all when `s` is not positive. */
  function Delay(s: real): (r: real)
    ensures r >= 0.0
  {
    if s > 0.0 then s else 0.0
  }

  /** The times at which `steps`, started at time `now`, send their messages. */
  function SendTimes(steps: seq<Step>, now: real): (r: seq<real>)
    ensures |r| <= |steps|
  {
    if |steps| == 0 then []
    else
      match steps[0]
      case Sleep(s) => SendTimes(steps[1..], now + Delay(s))
      case Transmit(_) => [now] + SendTimes(steps[1..], now)
  }

  /** The messages `steps` send, in order. */
  function Messages(steps: seq<Step>): (r: seq<Json>)
    ensures |r| <= |steps|
  {
    if |steps| == 0 then []
    else (if steps[0].Transmit? then [steps[0].data] else []) + Messages(steps[1..])
  }

  /** The heartbeat task's first round: sleep, then ping, then the remaining rounds. */
  lemma PingsCons(interval: real, rounds: nat)
    requires rounds > 0
    ensures var steps := Pings(interval, rounds);
      steps[0] == Sleep(interval) && steps[1] == Transmit(PING) && steps[2..] == Pings(interval, rounds - 1)
  {
    var later := Pings(interval, rounds - 1);
    assert Pings(interval, rounds) == [Sleep(interval), Transmit(PING)] + later;
  }

  /** `times[k]` is k + 1 periods `d` after `now`, for every k. */
  predicate EveryTick(times: seq<real>, now: real, d: real)
  {
    forall k :: 0 <= k < |times| ==> times[k] == now + (k + 1) as real * d
  }

  /**
   The heartbeat task started at time `now` sends its k-th heartbeat (counting
   from 0) k + 1 intervals later: it never stops on its own, and never sends
   early.
   */
  lemma {:induction false} PingSchedule(interval: real, rounds: nat, now: real)
    ensures |SendTimes(Pings(interval, rounds), now)| == rounds
    ensures EveryTick(SendTimes(Pings(interval, rounds), now), now, Delay(interval))
    decreases rounds
  {
    if rounds > 0 {
      var d := Delay(interval);
      var steps := Pings(interval, rounds);
      var later := Pings(interval, rounds - 1);
      PingsCons(interval, rounds);
      PingSchedule(interval, rounds - 1, now + d);
      var rest := SendTimes(later, now + d);
      assert SendTimes(steps[1..], now + d) == [now + d] + rest;
      ShiftedTicks(rest, now, d);
    }
  }

  /** Sending at `now + d` and then at the ticks of `now + d` is sending at the ticks of `now`. */
  lemma ShiftedTicks(rest: seq<real>, now: real, d: real)
    requires EveryTick(rest, now + d, d)
    ensures EveryTick([now + d] + rest, now, d)
  {
    var times := [now + d] + rest;
    forall k | 0 <= k < |times|
      ensures times[k] == now + (k + 1) as real * d
    {
      if k > 0 {
        assert times[k] == rest[k - 1];
        assert (k + 1) as real * d == d + k as real * d;
      }
    }
  }

  /** The heartbeat task sends nothing but the heartbeat message. */
  lemma {:induction false} PingsSendOnlyPing(interval: real, rounds: nat)
    ensures Messages(Pings(interval, rounds)) == seq(rounds, _ => PING)
    decreases rounds
  {
    if rounds > 0 {
      var steps := Pings(interval, rounds);
      PingsCons(interval, rounds);
      PingsSendOnlyPing(interval, rounds - 1);
      assert Messages(steps[1..]) == [PING] + Messages(steps[2..]);
      assert Messages(steps) == [PING] + seq(rounds - 1, _ => PING);
    }
  }

  /** The heartbeat started by a welcome frame with a positive interval of `ms` milliseconds pings every `ms / 1000` seconds. */
  lemma WelcomeCadence<C>(f: Frame, ctx: C, rounds: nat)
    requires f.op == WELCOME && HeartbeatMillis(f.d).Some? && HeartbeatMillis(f.d).value > 0.0
    ensures var acts := Dispatch(f, ctx).value;
      var times := SendTimes(Pings(acts[0].seconds, rounds), 0.0);
      && |times| == rounds
      && forall k :: 0 <= k < rounds ==> times[k] * 1000.0 == (k + 1) as real * HeartbeatMillis(f.d).value
  {
    var s := Dispatch(f, ctx).value[0].seconds;
    PingSchedule(s, rounds, 0.0);
    var times := SendTimes(Pings(s, rounds), 0.0);
    assert s > 0.0;
    forall k | 0 <= k < rounds
      ensures times[k] * 1000.0 == (k + 1) as real * HeartbeatMillis(f.d).value
    {
      assert times[k] == (k + 1) as real * s;
    }
  }

  /** Started without an interval, the heartbeat task pings every 45 seconds. */
  lemma DefaultCadence(rounds: nat)
    ensures var times := SendTimes(Pings(DEFAULT_INTERVAL, rounds), 0.0);
      && |times| == rounds
      && forall k :: 0 <= k < rounds ==> times[k] == 45.0 * (k + 1) as real
  {
    PingSchedule(DEFAULT_INTERVAL, rounds, 0.0);
  }
}

=== FILE: header.dfy ===
/**
 The window header of pyclmc (pyclmc/pyclmc.py, lines 62-66): the text
 followed by " - pyclmc", padded on both sides by the same number of spaces
 so that it sits in the middle of a terminal `cols` columns wide.

 Python computes the pad as `int(cols / 2 - len / 2)`: true division to a
 float, then truncation toward zero, and a string repeated a negative number
 of times is empty. The floats are modelled as exact reals, which they are
 for any realistic width and length.
 */
module Header {
  const SUFFIX: string := " - pyclmc"

  /** The header text proper. */
  function Title(text: string): (r: string)
    ensures |r| == |text| + |SUFFIX|
    ensures r[..|text|] == text && r[|text|..] == SUFFIX
  {
    text + SUFFIX
  }

  /** Python's `int(x)` on a float: truncation toward zero. */
  function Trunc(x: real): (r: int)
    ensures 0.0 <= x ==> r as real <= x < r as real + 1.0
    ensures x < 0.0 ==> r as real - 1.0 < x <= r as real
  {
    if 0.0 <= x then x.Floor else -((-x).Floor)
  }

  /** Python's `n * " "`: n spaces, and none when n is not positive. */
  function Spaces(n: int): (r: string)
    ensures |r| == if n <= 0 then 0 else n
    ensures forall i :: 0 <= i < |r| ==> r[i] == ' '
    decreases n
  {
    if n <= 0 then [] else [' '] + Spaces(n - 1)
  }

  /** The pad count as the code computes it, `int(cols / 2 - len / 2)`. */
  function Pad(cols: nat, len: nat): int
  {
    Trunc(cols as real / 2.0 - len as real / 2.0)
  }

  /** The line `set_header_text` draws at the top left of the window. */
  function Line(cols: nat, text: string): (r: string)
    ensures var m := Margin(cols, |Title(text)|);
      r == Spaces(m) + Title(text) + Spaces(m)
  {
    var title := Title(text);
    var pad := Pad(cols, |title|);
    PadIsMargin(cols, |title|);
    assert Spaces(pad) == Spaces(Margin(cols, |title|));
    Spaces(pad) + title + Spaces(pad)
  }

  /** The spaces on each side of the title: half the free columns, rounded down, and none when there are none. */
  function Margin(cols: nat, len: nat): nat
  {
    if len <= cols then (cols - len) / 2 else 0
  }

  /** The code's pad, once negative counts are read as empty, is the margin. */
  lemma {:induction false} PadIsMargin(cols: nat, len: nat)
    ensures (if Pad(cols, len) <= 0 then 0 else Pad(cols, len)) == Margin(cols, len)
  {
    var x := cols as real / 2.0 - len as real / 2.0;
    assert x == (cols - len) as real / 2.0;
    if len <= cols {
      var k, m := (cols - len) / 2, (cols - len) % 2;
      assert cols - len == 2 * k + m && 0 <= m < 2;
      assert x == k as real + m as real / 2.0;
      assert k as real <= x < k as real + 1.0;
      assert Trunc(x) == k;
    } else {
      assert x < 0.0;
      assert Trunc(x) <= 0;
    }
  }

  /**
   The line is the title with the same number of spaces on either side, that
   number being half the columns the title leaves free (rounded down), or
   zero when the title is wider than the terminal.
   */
  lemma Centred(cols: nat, text: string)
    ensures var title, m := Title(text), Margin(cols, |Title(text)|);
      && |Line(cols, text)| == m + |title| + m
      && Line(cols, text)[m..m + |title|] == title
      && Line(cols, text)[..m] == Spaces(m)
      && Line(cols, text)[m + |title|..] == Spaces(m)
  {
    var title := Title(text);
    PadIsMargin(cols, |title|);
    var m := Margin(cols, |title|);
    var line := Line(cols, text);
    assert Spaces(Pad(cols, |title|)) == Spaces(m);
    assert line == Spaces(m) + title + Spaces(m);
  }

  /**
   A title that fits leaves at most one column unused: the line is `cols`
   wide when the free columns are even and `cols - 1` wide when they are odd.
   A title that does not fit is drawn unpadded, as wide as itself.
   */
  lemma LineWidth(cols: nat, text: string)
    ensures var len := |Title(text)|;
      && (len <= cols ==> |Line(cols, text)| == cols - (cols - len) % 2)
      && (len <= cols ==> cols - 1 <= |Line(cols, text)| <= cols)
      && (len > cols ==> |Line(cols, text)| == len)
  {
    Centred(cols, text);
  }
}

=== FILE: keys.dfy ===
/**
 The key bindings of the pyclmc input loop (pyclmc/pyclmc.py, lines 16-22).

 Keys are the integer codes `getch` returns: the code point of a printable
 key, or an ncurses function-key code. The function-key codes below are the
 values ncurses' curses.h assigns; they are all at least 256 and pairwise
 distinct, so they never collide with a character code.
 */
module Keys {
  import opened Basics

  const KEY_DOWN: int := 0x102
  const KEY_UP: int := 0x103
  const KEY_ENTER: int := 0x157
  const KEY_CANCEL: int := 0x163
  const KEY_END: int := 0x168
  const KEY_EXIT: int := 0x169
  const ESCAPE: int := 27

  /** What `getch` reports when no key is available; also the loop's initial key. */
  const NO_KEY: int := -1

  const QUIT: seq<int> := ['q' as int, KEY_CANCEL, KEY_END, KEY_EXIT, ESCAPE]
  const VOLUME_UP: seq<int> := ['+' as int, '0' as int, KEY_UP]
  const VOLUME_DOWN: seq<int> := ['-' as int, '9' as int, KEY_DOWN]
  const MUTE: seq<int> := ['m' as int]
  const PLAYPAUSE: seq<int> := [' ' as int, 'p' as int, KEY_ENTER]

  /** Volume and volume step the player is launched with; the client never sends an absolute volume. */
  const DEFAULT_VOLUME: int := 100
  const VOLUMESTEP: int := 5

  /** The four playback commands a non-quit key can select. */
  datatype Command = VolumeUp | VolumeDown | MuteToggle | PlayPause

  /** The key list bound to each command. */
  function Binding(c: Command): seq<int>
  {
    match c
    case VolumeUp => VOLUME_UP
    case VolumeDown => VOLUME_DOWN
    case MuteToggle => MUTE
    case PlayPause => PLAYPAUSE
  }

  predicate IsQuit(key: int)
  {
    key in QUIT
  }

  /**
   The command the loop body's if/elif chain selects for one key. Because the
   key lists are pairwise disjoint, the first matching branch is the only
   matching one: a key selects a command exactly when it is in that command's
   list, and a quit key selects none.
   */
  function Classify(key: int): (r: Option<Command>)
    ensures forall c :: r == Some(c) <==> key in Binding(c)
    ensures IsQuit(key) ==> r == None
    ensures key == NO_KEY ==> r == None
  {
    if key in VOLUME_UP then Some(VolumeUp)
    else if key in VOLUME_DOWN then Some(VolumeDown)
    else if key in MUTE then Some(MuteToggle)
    else if key in PLAYPAUSE then Some(PlayPause)
    else None
  }

  /** The five key lists share no key. */
  lemma KeyListsDisjoint()
    ensures forall c, k :: k in Binding(c) ==> !IsQuit(k)
    ensures forall c, d, k :: c != d && k in Binding(c) ==> k !in Binding(d)
  {
    forall c, k | k in Binding(c)
      ensures !IsQuit(k)
    {
      assert Classify(k) == Some(c);
    }
    forall c, d, k | c != d && k in Binding(c)
      ensures k !in Binding(d)
    {
      assert Classify(k) == Some(c);
    }
  }

  /** The keys the loop reads before the first quit key. */
  function BeforeQuit(keys: seq<int>): (r: seq<int>)
    ensures |r| <= |keys|
  {
    if |keys| == 0 || IsQuit(keys[0]) then []
    else [keys[0]] + BeforeQuit(keys[1..])
  }

  /**
   The keys read before the first quit key are a prefix of the keys that
   holds no quit key; unless they are all of the keys, a quit key follows.
   */
  lemma {:induction false} BeforeQuitIsQuitFreePrefix(keys: seq<int>)
    ensures BeforeQuit(keys) <= keys
    ensures forall i :: 0 <= i < |BeforeQuit(keys)| ==> !IsQuit(keys[i])
    ensures |BeforeQuit(keys)| < |keys| ==> IsQuit(keys[|BeforeQuit(keys)|])
    decreases |keys|
  {
    if |keys| > 0 && !IsQuit(keys[0]) {
      BeforeQuitIsQuitFreePrefix(keys[1..]);
      var r := BeforeQuit(keys);
      assert r == [keys[0]] + BeforeQuit(keys[1..]);
      forall i | 0 <= i < |r|
        ensures r[i] == keys[i] && !IsQuit(keys[i])
      {
        if i > 0 {
          assert r[i] == BeforeQuit(keys[1..])[i - 1];
          assert keys[i] == keys[1..][i - 1];
        }
      }
      if |r| < |keys| {
        assert keys[|r|] == keys[1..][|r| - 1];
      }
    }
  }

  /** The commands selected by `keys`, one per bound key, in input order; unbound keys select nothing. */
  function Bound(keys: seq<int>): (r: seq<Command>)
    ensures |r| <= |keys|
  {
    if |keys| == 0 then []
    else
      match Classify(keys[0])
      case Some(c) => [c] + Bound(keys[1..])
      case None => Bound(keys[1..])
  }

  /** `Bound` distributes over concatenation, so commands keep the relative order of their keys. */
  lemma {:induction false} BoundAppend(a: seq<int>, b: seq<int>)
    ensures Bound(a + b) == Bound(a) + Bound(b)
    decreases |a|
  {
    if |a| == 0 {
      assert a + b == b;
    } else {
      assert (a + b)[1..] == a[1..] + b;
      BoundAppend(a[1..], b);
    }
  }

  /** A key that is in no list selects nothing; a bound key selects exactly its command. */
  lemma BoundSingle(k: int)
    ensures Classify(k).None? ==> Bound([k]) == []
    ensures forall c :: k in Binding(c) ==> Bound([k]) == [c]
  {
    assert [k][1..] == [];
  }

  /** Keys after the first quit key never reach the command list. */
  lemma {:induction false} BeforeQuitIgnoresRest(a: seq<int>, q: int, b: seq<int>)
    requires forall i :: 0 <= i < |a| ==> !IsQuit(a[i])
    requires IsQuit(q)
    ensures BeforeQuit(a + [q] + b) == a
    decreases |a|
  {
    if |a| == 0 {
      assert (a + [q] + b)[0] == q;
    } else {
      assert (a + [q] + b)[1..] == a[1..] + [q] + b;
      BeforeQuitIgnoresRest(a[1..], q, b);
    }
  }
}

=== FILE: session.dfy ===
/**
 The pyclmc input loop and its start-up and teardown (pyclmc/pyclmc.py,
 lines 24-46).

 The keys `getch` returns are a finite sequence; when it runs out without a
 quit key the real loop would block in `getch`, and the model reports that
 the run is still waiting for a key. The pipe's answers are an environment:
 the n-th fallible pipe operation of the run (a write, flush or close) is
 answered by `replies(n)`.
 */
module Session {
  import opened Basics
  import opened Keys
  import opened Actuator
  import H = Header

  type Replies = nat -> IoResult

  /**
   The result of running write helpers one after another: the pipe
   operations, the errno of the helper that raised (which ends the run), and
   the index of the next pipe answer.
   */
  datatype Sent = Sent(ops: seq<PipeOp>, raised: Option<int>, next: nat)

  /** Run the write helper of each of `cs` in turn from the n-th pipe answer on, stopping at the first that raises. */
  function Drive(cs: seq<Command>, replies: Replies, n: nat): (r: Sent)
    ensures r.next == n + |r.ops|
    decreases |cs|
  {
    if |cs| == 0 then Sent([], None, n)
    else
      var e := Send(cs[0], replies(n), replies(n + 1));
      if e.outcome.Raised? then Sent(e.ops, Some(e.outcome.errno), n + |e.ops|)
      else
        var rest := Drive(cs[1..], replies, n + |e.ops|);
        Sent(e.ops + rest.ops, rest.raised, rest.next)
  }

  /** Why the key loop stopped: the keys ran out, a quit key was read, or a write helper raised. */
  datatype LoopExit = Exhausted | QuitPressed | Failed(errno: int)

  /** The pipe operations of the key loop, why it stopped, and the index of the next pipe answer. */
  datatype LoopResult = LoopResult(ops: seq<PipeOp>, exit: LoopExit, next: nat)

  /**
   The `while key_event not in QUIT` loop from the n-th pipe answer on: each
   round reads a key and runs the write helper its list selects; the loop
   stops after a quit key, at the first helper that raises, or (still
   waiting in `getch`) when the keys run out.
   */
  function Loop(keys: seq<int>, replies: Replies, n: nat): (r: LoopResult)
    ensures |r.ops| <= 2 * |keys|
    decreases |keys|
  {
    if |keys| == 0 then LoopResult([], Exhausted, n)
    else
      match Classify(keys[0])
      case None =>
        if IsQuit(keys[0]) then LoopResult([], QuitPressed, n) else Loop(keys[1..], replies, n)
      case Some(c) =>
        var e := Send(c, replies(n), replies(n + 1));
        if e.outcome.Raised? then LoopResult(e.ops, Failed(e.outcome.errno), n + |e.ops|)
        else
          var rest := Loop(keys[1..], replies, n + |e.ops|);
          LoopResult(e.ops + rest.ops, rest.exit, rest.next)
  }

  /** The loop's result as the helpers of the commands read before the first quit key would produce it. */
  function ByCommands(keys: seq<int>, replies: Replies, n: nat): LoopResult
  {
    var d := Drive(Bound(BeforeQuit(keys)), replies, n);
    var exit :=
      if d.raised.Some? then Failed(d.raised.value)
      else if |BeforeQuit(keys)| < |keys| then QuitPressed
      else Exhausted;
    LoopResult(d.ops, exit, d.next)
  }

  /**
   The loop runs the write helpers of exactly the commands selected by the
   keys read before the first quit key, in input order. It stops at that quit
   key when no helper raises, and runs out of keys only when there is none.
   */
  lemma {:induction false} LoopIsDrive(keys: seq<int>, replies: Replies, n: nat)
    ensures Loop(keys, replies, n) == ByCommands(keys, replies, n)
    decreases |keys|
  {
    if |keys| > 0 && !IsQuit(keys[0]) {
      match Classify(keys[0])
      case None =>
        LoopIsDrive(keys[1..], replies, n);
        SkipStep(keys, replies, n);
      case Some(c) =>
        var e := Send(c, replies(n), replies(n + 1));
        LoopIsDrive(keys[1..], replies, n + |e.ops|);
        SendStep(keys, replies, n, c);
    } else if |keys| > 0 {
      assert Classify(keys[0]) == None;
      assert BeforeQuit(keys) == [];
    }
  }

  lemma SkipStep(keys: seq<int>, replies: Replies, n: nat)
    requires |keys| > 0 && !IsQuit(keys[0]) && Classify(keys[0]).None?
    requires Loop(keys[1..], replies, n) == ByCommands(keys[1..], replies, n)
    ensures Loop(keys, replies, n) == ByCommands(keys, replies, n)
  {
    ReadOne(keys);
  }

  lemma SendStep(keys: seq<int>, replies: Replies, n: nat, c: Command)
    requires |keys| > 0 && Classify(keys[0]) == Some(c)
    requires var e := Send(c, replies(n), replies(n + 1));
      Loop(keys[1..], replies, n + |e.ops|) == ByCommands(keys[1..], replies, n + |e.ops|)
    ensures Loop(keys, replies, n) == ByCommands(keys, replies, n)
  {
    LoopSendsFirst(keys, replies, n, c);
    ByCommandsSendsFirst(keys, replies, n, c);
  }

  /** `ByCommands` takes the same first step as `Loop` on a key bound to a command. */
  lemma ByCommandsSendsFirst(keys: seq<int>, replies: Replies, n: nat, c: Command)
    requires |keys| > 0 && Classify(keys[0]) == Some(c)
    ensures var e := Send(c, replies(n), replies(n + 1));
      ByCommands(keys, replies, n) ==
        if e.outcome.Raised? then LoopResult(e.ops, Failed(e.outcome.errno), n + |e.ops|)
        else
          var r := ByCommands(keys[1..], replies, n + |e.ops|);
          LoopResult(e.ops + r.ops, r.exit, r.next)
  {
    ReadOne(keys);
    var rest := keys[1..];
    var later := Bound(BeforeQuit(rest));
    var e := Send(c, replies(n), replies(n + 1));
    DriveCons(c, later, replies, n);
    assert |BeforeQuit(keys)| < |keys| <==> |BeforeQuit(rest)| < |rest|;
    assert Bound(BeforeQuit(keys)) == [c] + later;
  }

  lemma LoopSendsFirst(keys: seq<int>, replies: Replies, n: nat, c: Command)
    requires |keys| > 0 && Classify(keys[0]) == Some(c)
    ensures var e := Send(c, replies(n), replies(n + 1));
      Loop(keys, replies, n) ==
        if e.outcome.Raised? then LoopResult(e.ops, Failed(e.outcome.errno), n + |e.ops|)
        else
          var r := Loop(keys[1..], replies, n + |e.ops|);
          LoopResult(e.ops + r.ops, r.exit, r.next)
  {
  }

  /** Driving a command list that starts with `c` runs `c`'s helper first. */
  lemma DriveCons(c: Command, later: seq<Command>, replies: Replies, n: nat)
    ensures var e := Send(c, replies(n), replies(n + 1));
      e.outcome.Raised? ==> Drive([c] + later, replies, n) == Sent(e.ops, Some(e.outcome.errno), n + |e.ops|)
    ensures var e := Send(c, replies(n), replies(n + 1));
      var d := Drive(later, replies, n + |e.ops|);
      e.outcome.Returned? ==> Drive([c] + later, replies, n) == Sent(e.ops + d.ops, d.raised, d.next)
  {
    assert ([c] + later)[0] == c && ([c] + later)[1..] == later;
  }

  lemma ReadOne(keys: seq<int>)
    requires |keys| > 0 && !IsQuit(keys[0])
    ensures BeforeQuit(keys) == [keys[0]] + BeforeQuit(keys[1..])
    ensures Classify(keys[0]).None? ==> Bound(BeforeQuit(keys)) == Bound(BeforeQuit(keys[1..]))
    ensures Classify(keys[0]).Some? ==> Bound(BeforeQuit(keys)) == [Classify(keys[0]).value] + Bound(BeforeQuit(keys[1..]))
  {
    assert ([keys[0]] + BeforeQuit(keys[1..]))[1..] == BeforeQuit(keys[1..]);
  }

  /**
   The loop runs out of keys only when no key is a quit key, and stops at a
   quit key only when there is one, right after the keys it read; when no
   helper raises, it runs out of keys exactly when there is no quit key.
   */
  lemma LoopExitKeys(keys: seq<int>, replies: Replies, n: nat)
    ensures Loop(keys, replies, n).exit.Exhausted? ==> forall i :: 0 <= i < |keys| ==> !IsQuit(keys[i])
    ensures Loop(keys, replies, n).exit.QuitPressed? ==>
      |BeforeQuit(keys)| < |keys| && IsQuit(keys[|BeforeQuit(keys)|])
    ensures !Loop(keys, replies, n).exit.Failed? ==>
      (Loop(keys, replies, n).exit.Exhausted? <==> forall i :: 0 <= i < |keys| ==> !IsQuit(keys[i]))
  {
    LoopIsDrive(keys, replies, n);
    BeforeQuitIsQuitFreePrefix(keys);
    var exit := Loop(keys, replies, n).exit;
    if exit.Exhausted? {
      assert BeforeQuit(keys) == keys;
    } else if exit.QuitPressed? {
      assert IsQuit(keys[|BeforeQuit(keys)|]);
    }
  }

  /** Keys after the first quit key are never read. */
  lemma LoopStopsAtQuit(a: seq<int>, q: int, b: seq<int>, replies: Replies, n: nat)
    requires forall i :: 0 <= i < |a| ==> !IsQuit(a[i])
    requires IsQuit(q)
    ensures Loop(a + [q] + b, replies, n) == Loop(a + [q], replies, n)
    ensures !Loop(a + [q] + b, replies, n).exit.Exhausted?
  {
    BeforeQuitIgnoresRest(a, q, b);
    BeforeQuitIgnoresRest(a, q, []);
    assert a + [q] + [] == a + [q];
    LoopIsDrive(a + [q] + b, replies, n);
    LoopIsDrive(a + [q], replies, n);
  }

  /**
   The `main` loop as written: `key_event` starts at -1, which is no quit
   key, and each round reads one key and runs the helper its list selects.
   */
  method KeyLoop(keys: seq<int>, replies: Replies) returns (r: LoopResult)
    ensures r == Loop(keys, replies, 0)
  {
    var keyEvent := NO_KEY;
    var i := 0;
    var n: nat := 0;
    var ops: seq<PipeOp> := [];
    while !IsQuit(keyEvent) && i < |keys|
      invariant 0 <= i <= |keys|
      invariant !IsQuit(keyEvent) ==>
        var rest := Loop(keys[i..], replies, n);
        Loop(keys, replies, 0) == LoopResult(ops + rest.ops, rest.exit, rest.next)
      invariant IsQuit(keyEvent) ==> Loop(keys, replies, 0) == LoopResult(ops, QuitPressed, n)
      decreases |keys| - i
    {
      keyEvent := keys[i];
      ghost var here := keys[i..];
      ghost var before := Loop(here, replies, n);
      assert here[0] == keyEvent && here[1..] == keys[i + 1..];
      i := i + 1;
      match Classify(keyEvent)
      case Some(c) =>
        var e := Send(c, replies(n), replies(n + 1));
        if e.outcome.Raised? {
          assert before == LoopResult(e.ops, Failed(e.outcome.errno), n + |e.ops|);
          return LoopResult(ops + e.ops, Failed(e.outcome.errno), n + |e.ops|);
        }
        ghost var rest := Loop(keys[i..], replies, n + |e.ops|);
        assert before == LoopResult(e.ops + rest.ops, rest.exit, rest.next);
        assert ops + e.ops + rest.ops == ops + (e.ops + rest.ops);
        ops := ops + e.ops;
        n := n + |e.ops|;
      case None =>
        if IsQuit(keyEvent) {
          assert before == LoopResult([], QuitPressed, n);
          assert ops + [] == ops;
        } else {
          assert before == Loop(keys[i..], replies, n);
        }
    }
    if IsQuit(keyEvent) {
      r := LoopResult(ops, QuitPressed, n);
    } else {
      assert keys[i..] == [] && ops + [] == ops;
      r := LoopResult(ops, Exhausted, n);
    }
  }

  /** The tokens written by the operations `ops`, in order. */
  function Writes(ops: seq<PipeOp>): (r: seq<char>)
    ensures |r| <= |ops|
  {
    if |ops| == 0 then []
    else (if ops[0].Write? then [ops[0].token] else []) + Writes(ops[1..])
  }

  lemma {:induction false} WritesAppend(a: seq<PipeOp>, b: seq<PipeOp>)
    ensures Writes(a + b) == Writes(a) + Writes(b)
    decreases |a|
  {
    if |a| == 0 {
      assert a + b == b;
    } else {
      var head := if a[0].Write? then [a[0].token] else [];
      assert (a + b)[0] == a[0] && (a + b)[1..] == a[1..] + b;
      WritesAppend(a[1..], b);
      assert head + (Writes(a[1..]) + Writes(b)) == (head + Writes(a[1..])) + Writes(b);
    }
  }

  /** The tokens of the commands `cs`, in order. */
  function Tokens(cs: seq<Command>): (r: seq<char>)
    ensures |r| == |cs|
    ensures forall i :: 0 <= i < |cs| ==> r[i] == Token(cs[i])
  {
    if |cs| == 0 then [] else [Token(cs[0])] + Tokens(cs[1..])
  }

  /** A send writes its command's token and nothing else. */
  lemma SendWrites(c: Command, write: IoResult, flush: IoResult)
    ensures Writes(Send(c, write, flush).ops) == [Token(c)]
  {
    var e := Send(c, write, flush);
    assert e.ops[1..] == [] || e.ops[1..] == [Flush];
    assert Writes(e.ops[1..]) == [];
  }

  /**
   The helpers write their commands' tokens in order and nothing else; one
   that raises cuts the list short right after its own write.
   */
  lemma {:induction false} DriveWrites(cs: seq<Command>, replies: Replies, n: nat)
    ensures Writes(Drive(cs, replies, n).ops) <= Tokens(cs)
    ensures Drive(cs, replies, n).raised.None? ==> Writes(Drive(cs, replies, n).ops) == Tokens(cs)
    ensures Drive(cs, replies, n).raised.Some? ==> |Writes(Drive(cs, replies, n).ops)| > 0
    decreases |cs|
  {
    var d := Drive(cs, replies, n);
    if |cs| == 0 {
      assert d == Sent([], None, n);
    } else {
      var t := Token(cs[0]);
      var e := Send(cs[0], replies(n), replies(n + 1));
      SendWrites(cs[0], replies(n), replies(n + 1));
      assert Tokens(cs) == [t] + Tokens(cs[1..]);
      if e.outcome.Raised? {
        assert d == Sent(e.ops, Some(e.outcome.errno), n + |e.ops|);
        PrefixCons(t, [], Tokens(cs[1..]));
      } else {
        var rest := Drive(cs[1..], replies, n + |e.ops|);
        assert d == Sent(e.ops + rest.ops, rest.raised, rest.next);
        DriveWrites(cs[1..], replies, n + |e.ops|);
        ConsWrites(t, e.ops, rest.ops, Tokens(cs[1..]));
        assert rest.raised.None? ==> Writes(rest.ops) == Tokens(cs[1..]);
      }
    }
  }

  /**
   A run of helpers that raised stopped at the k-th helper: the helpers
   before it returned, it raised, and the run is exactly the run of the
   helpers up to it, so none after it ran. Its writes are the tokens of the
   commands up to and including the k-th, each written once.
   */
  ghost predicate StopsAt(cs: seq<Command>, replies: Replies, n: nat, k: int)
  {
    && 0 <= k < |cs|
    && Drive(cs[..k], replies, n).raised.None?
    && Drive(cs[..k + 1], replies, n).raised.Some?
    && Drive(cs, replies, n) == Drive(cs[..k + 1], replies, n)
    && Writes(Drive(cs, replies, n).ops) == Tokens(cs[..k + 1])
  }

  /**
   A helper that raises ends the key loop: every helper before it returned,
   and no later command is sent.
   */
  lemma {:induction false} DriveStopsAtRaise(cs: seq<Command>, replies: Replies, n: nat)
    ensures Drive(cs, replies, n).raised.Some? ==> exists k :: StopsAt(cs, replies, n, k)
    decreases |cs|
  {
    if |cs| > 0 {
      var e := Send(cs[0], replies(n), replies(n + 1));
      if e.outcome.Raised? {
        assert cs[..0] == [];
        DriveCons(cs[0], [], replies, n);
        assert cs[..1] == [cs[0]] + [];
        DriveCons(cs[0], cs[1..], replies, n);
        assert cs == [cs[0]] + cs[1..];
        SendWrites(cs[0], replies(n), replies(n + 1));
        assert Tokens(cs[..1]) == [Token(cs[0])];
        assert StopsAt(cs, replies, n, 0);
      } else {
        var m := n + |e.ops|;
        DriveCons(cs[0], cs[1..], replies, n);
        assert cs == [cs[0]] + cs[1..];
        DriveStopsAtRaise(cs[1..], replies, m);
        if Drive(cs[1..], replies, m).raised.Some? {
          var k :| StopsAt(cs[1..], replies, m, k);
          StopsLater(cs, replies, n, m, k);
        }
      }
    }
  }

  /** A stop at the k-th helper after a first helper that returned is a stop at the (k + 1)-th. */
  lemma StopsLater(cs: seq<Command>, replies: Replies, n: nat, m: nat, k: nat)
    requires |cs| > 0
    requires Send(cs[0], replies(n), replies(n + 1)).outcome.Returned?
    requires m == n + |Send(cs[0], replies(n), replies(n + 1)).ops|
    requires StopsAt(cs[1..], replies, m, k)
    ensures StopsAt(cs, replies, n, k + 1)
  {
    var t := cs[1..];
    assert cs[..k + 1] == [cs[0]] + t[..k];
    assert cs[..k + 2] == [cs[0]] + t[..k + 1];
    assert cs == [cs[0]] + t;
    ConsReturned(cs[0], t[..k], replies, n, m);
    ConsReturned(cs[0], t[..k + 1], replies, n, m);
    ConsReturned(cs[0], t, replies, n, m);
    var e := Send(cs[0], replies(n), replies(n + 1));
    SendWrites(cs[0], replies(n), replies(n + 1));
    WritesAppend(e.ops, Drive(t, replies, m).ops);
    assert Tokens(cs[..k + 2]) == [Token(cs[0])] + Tokens(t[..k + 1]);
  }

  /** In front of a helper that returned, a run keeps the outcome and continuation of the rest. */
  lemma ConsReturned(c: Command, later: seq<Command>, replies: Replies, n: nat, m: nat)
    requires Send(c, replies(n), replies(n + 1)).outcome.Returned?
    requires m == n + |Send(c, replies(n), replies(n + 1)).ops|
    ensures Drive([c] + later, replies, n).raised == Drive(later, replies, m).raised
    ensures Drive([c] + later, replies, n).ops == Send(c, replies(n), replies(n + 1)).ops + Drive(later, replies, m).ops
    ensures Drive([c] + later, replies, n).next == Drive(later, replies, m).next
  {
    DriveCons(c, later, replies, n);
  }

  /** Writes of one helper that wrote `t`, followed by writes that are a prefix of `tail`. */
  lemma ConsWrites(t: char, first: seq<PipeOp>, later: seq<PipeOp>, tail: seq<char>)
    requires Writes(first) == [t] && Writes(later) <= tail
    ensures Writes(first + later) <= [t] + tail && |Writes(first + later)| > 0
    ensures Writes(later) == tail ==> Writes(first + later) == [t] + tail
  {
    WritesAppend(first, later);
    PrefixCons(t, Writes(later), tail);
  }

  lemma PrefixCons(t: char, a: seq<char>, b: seq<char>)
    requires a <= b
    ensures [t] + a <= [t] + b
  {
    assert ([t] + b)[..|a| + 1] == [t] + a;
  }

  /**
   The key loop writes the token of every command selected by a key read
   before the first quit key, in input order, and nothing else; a helper that
   raises cuts that list short after the failing write.
   */
  lemma LoopWrites(keys: seq<int>, replies: Replies, n: nat)
    ensures var r := Loop(keys, replies, n);
      && Writes(r.ops) <= Tokens(Bound(BeforeQuit(keys)))
      && (!r.exit.Failed? ==> Writes(r.ops) == Tokens(Bound(BeforeQuit(keys))))
      && (r.exit.Failed? ==> |Writes(r.ops)| > 0)
  {
    LoopIsDrive(keys, replies, n);
    DriveWrites(Bound(BeforeQuit(keys)), replies, n);
  }

  /** The operations of sending each of `cs` to a pipe that accepts everything: each token followed by one flush. */
  function Accepted(cs: seq<Command>): (r: seq<PipeOp>)
    ensures |r| == 2 * |cs|
  {
    if |cs| == 0 then [] else [Write(Token(cs[0])), Flush] + Accepted(cs[1..])
  }

  /** The operations of sending each of `cs` to a closed pipe: each token written once, never flushed. */
  function Refused(cs: seq<Command>): (r: seq<PipeOp>)
    ensures |r| == |cs|
  {
    if |cs| == 0 then [] else [Write(Token(cs[0]))] + Refused(cs[1..])
  }

  ghost predicate OpenPipe(replies: Replies)
  {
    forall m :: replies(m) == Ok
  }

  /**
   An environment that answers every pipe operation, writes included, with
   EPIPE or EINVAL. With the pipe buffered, a real write rarely fails this
   way; the predicate fixes the answers, not the buffering.
   */
  ghost predicate ClosedPipe(replies: Replies)
  {
    forall m :: replies(m).Err? && IsClosedPipe(replies(m).errno)
  }

  /** Against a pipe that accepts everything, no helper raises, and each writes its token and flushes once. */
  lemma {:induction false} DriveOnOpenPipe(cs: seq<Command>, replies: Replies, n: nat)
    requires OpenPipe(replies)
    ensures Drive(cs, replies, n) == Sent(Accepted(cs), None, n + 2 * |cs|)
    decreases |cs|
  {
    if |cs| > 0 {
      assert replies(n) == Ok;
      DriveOnOpenPipe(cs[1..], replies, n + 2);
    }
  }

  /**
   When every pipe operation is answered with EPIPE or EINVAL, no helper
   raises: each writes its token once, swallows the error and does not flush.
   */
  lemma {:induction false} DriveOnClosedPipe(cs: seq<Command>, replies: Replies, n: nat)
    requires ClosedPipe(replies)
    ensures Drive(cs, replies, n) == Sent(Refused(cs), None, n + |cs|)
    decreases |cs|
  {
    if |cs| > 0 {
      assert replies(n).Err? && IsClosedPipe(replies(n).errno);
      DriveOnClosedPipe(cs[1..], replies, n + 1);
    }
  }

  /** The three header texts `main` shows. */
  datatype Banner = Initializing | Playing | Quitting

  function Text(b: Banner): string
  {
    match b
    case Initializing => "Initializing..."
    case Playing => "Playing"
    case Quitting => "Quitting..."
  }

  /**
   The line a `Header(b)` event draws on a terminal `cols` columns wide: the
   banner's text followed by " - pyclmc", with the same number of spaces on
   either side.
   */
  function Drawn(b: Banner, cols: nat): (r: string)
    ensures var t := H.Title(Text(b)); var m := H.Margin(cols, |t|);
      |r| == m + |t| + m && r[..m] == H.Spaces(m) && r[m..m + |t|] == t && r[m + |t|..] == H.Spaces(m)
  {
    H.Centred(cols, Text(b));
    H.Line(cols, Text(b))
  }

  /** Something the program does to the terminal, the player or its pipe. */
  datatype Event =
    | InitCurses
    | Header(banner: Banner)
    | StartPlayer(volume: int, step: int)
    | Pipe(op: PipeOp)
    | RestoreCurses

  /** How a run ends: still blocked in `getch`, finished, or ended by an error that propagated out of `main`. */
  datatype Exit = AwaitingKey | Finished | Aborted(errno: int)

  datatype Run = Run(events: seq<Event>, exit: Exit)

  const STARTUP: seq<Event> :=
    [InitCurses, Header(Initializing), StartPlayer(DEFAULT_VOLUME, VOLUMESTEP), Header(Playing)]

  function OnPipe(ops: seq<PipeOp>): (r: seq<Event>)
    ensures |r| == |ops|
    ensures forall i :: 0 <= i < |ops| ==> r[i] == Pipe(ops[i])
  {
    seq(|ops|, i requires 0 <= i < |ops| => Pipe(ops[i]))
  }

  /** The teardown tail of a run that finished: the header, then the player, then the terminal. */
  function Teardown(killed: bool): seq<Event>
  {
    [Header(Quitting)] + OnPipe(QuitOps(killed)) + [RestoreCurses]
  }

  /** What a quit that goes through does to the player: the quit token, a kill if that write failed, flush, close and wait. */
  function QuitOps(killed: bool): seq<PipeOp>
  {
    [Write(QUIT_TOKEN)] + (if killed then [Kill] else []) + [Flush, Close, Wait]
  }

  predicate EndsWith(s: seq<Event>, suffix: seq<Event>)
  {
    |suffix| <= |s| && s[|s| - |suffix|..] == suffix
  }

  /**
   `main`: set up curses and the player, run the key loop, then set the
   header to "Quitting...", stop the player and restore the terminal, in that
   order. Nothing catches an error raised on the way, so such an error skips
   the rest of the teardown, terminal restoration included.
   */
  function Main(keys: seq<int>, replies: Replies): (r: Run)
    ensures r.exit == Finished ==> |r.events| > 4 && r.events[|r.events| - 1] == RestoreCurses
  {
    Shutdown(Loop(keys, replies, 0), replies)
  }

  /** What `main` has done once the key loop `l` stops. */
  function Shutdown(l: LoopResult, replies: Replies): Run
  {
    Run(ShutdownEvents(l, replies), ShutdownExit(l, replies))
  }

  /** `_quit_mplayer` as run after the key loop `l`, on the next three pipe answers. */
  function QuitAfter(l: LoopResult, replies: Replies): Effect
  {
    QuitPlayer(replies(l.next), replies(l.next + 1), replies(l.next + 2))
  }

  /** The events of a run whose key loop ended as `l`. */
  function ShutdownEvents(l: LoopResult, replies: Replies): seq<Event>
  {
    STARTUP + OnPipe(l.ops) + (if l.exit.QuitPressed? then Ending(QuitAfter(l, replies)) else [])
  }

  /** How a run whose key loop ended as `l` ends. */
  function ShutdownExit(l: LoopResult, replies: Replies): Exit
  {
    match l.exit
    case Exhausted => AwaitingKey
    case Failed(errno) => Aborted(errno)
    case QuitPressed =>
      var q := QuitAfter(l, replies);
      if q.outcome.Raised? then Aborted(q.outcome.errno) else Finished
  }

  /**
   Every run starts with the set-up events, and restores the terminal exactly
   when it finishes: an error that propagates out of `main` skips the restore.
   */
  lemma MainRestores(keys: seq<int>, replies: Replies)
    ensures |Main(keys, replies).events| >= 4 && Main(keys, replies).events[..4] == STARTUP
    ensures RestoreCurses in Main(keys, replies).events <==> Main(keys, replies).exit == Finished
  {
    ShutdownRestores(Loop(keys, replies, 0), replies);
  }

  lemma ShutdownRestores(l: LoopResult, replies: Replies)
    ensures |Shutdown(l, replies).events| >= 4 && Shutdown(l, replies).events[..4] == STARTUP
    ensures RestoreCurses in Shutdown(l, replies).events <==> Shutdown(l, replies).exit == Finished
  {
    var played := STARTUP + OnPipe(l.ops);
    assert RestoreCurses !in played;
    var rest := if l.exit.QuitPressed? then Ending(QuitAfter(l, replies)) else [];
    assert RestoreCurses in rest <==> ShutdownExit(l, replies) == Finished;
    assert (played + rest)[..4] == STARTUP;
  }

  /**
   The events from the "Quitting..." header on, for a quit that did `q` to
   the player: the terminal is restored only when the quit went through.
   */
  function Ending(q: Effect): seq<Event>
  {
    [Header(Quitting)] + OnPipe(q.ops) + (if q.outcome.Returned? then [RestoreCurses] else [])
  }

  /** The events of a quit that went through are the teardown tail. */
  lemma QuitEvents(write: IoResult, flush: IoResult, close: IoResult)
    requires QuitPlayer(write, flush, close).outcome.Returned?
    ensures Ending(QuitPlayer(write, flush, close)) == Teardown(write.Err?)
  {
    assert QuitPlayer(write, flush, close).ops == QuitOps(write.Err?);
  }

  /** A run finishes only after a quit key; a run still waiting for a key has seen none. */
  lemma MainExitKeys(keys: seq<int>, replies: Replies)
    ensures Main(keys, replies).exit == Finished ==> |BeforeQuit(keys)| < |keys|
    ensures Main(keys, replies).exit == AwaitingKey ==> BeforeQuit(keys) == keys
  {
    LoopIsDrive(keys, replies, 0);
    BeforeQuitIsQuitFreePrefix(keys);
  }

  /**
   A run that finishes ends with the teardown: the "Quitting..." header, the
   quit token, a kill if that write failed, flush, close and wait, and
   terminal restoration last.
   */
  lemma MainTeardown(keys: seq<int>, replies: Replies)
    ensures var r := Main(keys, replies);
      r.exit == Finished ==> EndsWith(r.events, Teardown(false)) || EndsWith(r.events, Teardown(true))
  {
    ShutdownTeardown(Loop(keys, replies, 0), replies);
  }

  /**
   After the key loop, a run that finishes ends with the teardown, and kills
   the player exactly when the quit token's write, the first pipe operation
   after the loop, failed.
   */
  lemma ShutdownTeardown(l: LoopResult, replies: Replies)
    ensures var r := Shutdown(l, replies);
      r.exit == Finished ==> EndsWith(r.events, Teardown(replies(l.next).Err?))
  {
    if ShutdownExit(l, replies) == Finished {
      assert l.exit.QuitPressed? && QuitAfter(l, replies).outcome.Returned?;
      QuitEvents(replies(l.next), replies(l.next + 1), replies(l.next + 2));
      assert ShutdownEvents(l, replies) == STARTUP + OnPipe(l.ops) + Teardown(replies(l.next).Err?);
      EndsWithAppend(STARTUP + OnPipe(l.ops), Teardown(replies(l.next).Err?));
    }
  }

  lemma EndsWithAppend(a: seq<Event>, b: seq<Event>)
    ensures EndsWith(a + b, b)
  {
    assert (a + b)[|a|..] == b;
  }

  /**
   Against a pipe that accepts everything, a run plays every command read
   before the first quit key (token and flush each) and, when there is a quit
   key, finishes with the full teardown and no kill.
   */
  lemma MainOnOpenPipe(keys: seq<int>, replies: Replies)
    requires OpenPipe(replies)
    ensures var played := STARTUP + OnPipe(Accepted(Bound(BeforeQuit(keys))));
      Main(keys, replies) ==
        if |BeforeQuit(keys)| < |keys| then Run(played + Teardown(false), Finished)
        else Run(played, AwaitingKey)
  {
    var cmds := Bound(BeforeQuit(keys));
    var quit := |BeforeQuit(keys)| < |keys|;
    LoopIsDrive(keys, replies, 0);
    DriveOnOpenPipe(cmds, replies, 0);
    var l := Loop(keys, replies, 0);
    assert l == LoopResult(Accepted(cmds), if quit then QuitPressed else Exhausted, 2 * |cmds|);
    if quit {
      QuitOnOpenPipe(l, replies);
    } else {
      assert Shutdown(l, replies) == Run(STARTUP + OnPipe(l.ops) + [], AwaitingKey);
    }
  }

  /** Quitting against a pipe that accepts everything goes through the whole teardown without a kill. */
  lemma QuitOnOpenPipe(l: LoopResult, replies: Replies)
    requires OpenPipe(replies) && l.exit.QuitPressed?
    ensures Shutdown(l, replies) == Run(STARTUP + OnPipe(l.ops) + Teardown(false), Finished)
  {
    assert replies(l.next) == Ok && replies(l.next + 1) == Ok && replies(l.next + 2) == Ok;
    assert QuitAfter(l, replies) == Effect([Write(QUIT_TOKEN), Flush, Close, Wait], Returned);
    QuitEvents(Ok, Ok, Ok);
  }

  /**
   When every pipe operation is answered with EPIPE or EINVAL, the helpers
   swallow the errors, but quitting does not: the quit token's write fails,
   the player is killed, and the flush that follows, being outside the
   `try`, raises, so `main` ends with that error and never restores the
   terminal.
   */
  lemma MainOnClosedPipe(keys: seq<int>, replies: Replies)
    requires ClosedPipe(replies)
    ensures var cmds := Bound(BeforeQuit(keys));
      var played := STARTUP + OnPipe(Refused(cmds));
      Main(keys, replies) ==
        if |BeforeQuit(keys)| < |keys| then
          Run(played + [Header(Quitting)] + OnPipe([Write(QUIT_TOKEN), Kill, Flush]),
              Aborted(replies(|cmds| + 1).errno))
        else Run(played, AwaitingKey)
  {
    var cmds := Bound(BeforeQuit(keys));
    var quit := |BeforeQuit(keys)| < |keys|;
    LoopIsDrive(keys, replies, 0);
    DriveOnClosedPipe(cmds, replies, 0);
    var l := Loop(keys, replies, 0);
    assert l == LoopResult(Refused(cmds), if quit then QuitPressed else Exhausted, |cmds|);
    if quit {
      QuitOnClosedPipe(l, replies);
    } else {
      assert Shutdown(l, replies) == Run(STARTUP + OnPipe(l.ops) + [], AwaitingKey);
    }
  }

  /** Quitting when every pipe operation fails with EPIPE or EINVAL: the write fails, the player is killed, and the flush raises. */
  lemma QuitOnClosedPipe(l: LoopResult, replies: Replies)
    requires ClosedPipe(replies) && l.exit.QuitPressed?
    ensures Shutdown(l, replies) ==
      Run(STARTUP + OnPipe(l.ops) + [Header(Quitting)] + OnPipe([Write(QUIT_TOKEN), Kill, Flush]),
          Aborted(replies(l.next + 1).errno))
  {
    assert replies(l.next).Err? && replies(l.next + 1).Err?;
    var q := QuitAfter(l, replies);
    assert q == Effect([Write(QUIT_TOKEN), Kill, Flush], Raised(replies(l.next + 1).errno));
    assert Ending(q) == [Header(Quitting)] + OnPipe([Write(QUIT_TOKEN), Kill, Flush]);
  }
}
